=== FILE: README.md ===
# Floral Fantasy catalog server — a Dafny model

The server is an Express application over a MongoDB database with two
collections, `products` and `categories`. This project models what its route
handlers ask of the store and what the store then does:

- **ProductQuery** (`query.dfy`): how GET /products turns its optional
  query-string parameters (`category`, `search`, `addedToCart`, `page`,
  `limit`, `sortBy`, `sortOrder`) into a filter document, find options
  (`skip`, `limit`, one-field sort) and the pagination block
  (`totalProducts`, `totalPages`, `currentPage`, `pageSize`).
- **Documents** (`documents.dfy`): field values, documents and the store's
  comparison order on values (null < numbers < strings < ObjectIds <
  booleans; strings compared code point by code point).
- **Listing** (`listing.dfy`): what find does with a filter and options:
  select, sort (insertion sort, proved sorted and a permutation), and cut the
  window `[skip, skip + limit)`; how items fall on pages.
- **Store** (`store.dfy`): a collection as a class holding a map from `_id`
  to document and the natural (insertion) order of the keys, with insertOne,
  findOne, updateOne with `$set`, deleteOne, countDocuments and find. Its
  invariant says the order lists each key exactly once, lists exactly the
  stored keys, and no stored field set holds an `_id` (the key is the `_id`).
- **Catalog** (`catalog.dfy`): the route handlers: product listing, single
  product, product and category insert, update and delete, and the category
  listing with its `$lookup` product count.

Request parsing, the regular-expression engine and the driver's ObjectId
generation are parameters: an ObjectId in a path is given as the number it
parses to, a title search is decided by `matches(title, pattern)`, and
insertOne takes the identifier the driver would generate.

## Model

| member | source | states |
|---|---|---|
| `ProductQuery.BuildFilter` | index.js:38-42 | a category constraint exists iff `category` is present and non-empty and then holds exactly that string; likewise the title pattern for `search`; an `addedToCart` constraint exists iff the parameter is present, and is true iff the string is exactly "true" |
| `ProductQuery.BuildOptions` | index.js:29-50 | limit defaults to 10; skip + limit = page × limit (so skip = (page − 1) × limit, 0 on the first page); sort field is `sortBy` or "name"; the direction is ascending iff `sortOrder` is absent or exactly "asc" |
| `ProductQuery.TotalPages` | index.js:55 | the page count holds every item, one page fewer would not, and it is 0 iff there are no items |
| `ProductQuery.TotalPagesLeast` | index.js:55 | every page count that holds all items is at least TotalPages (it is the integer ceiling of total / limit) |
| `ProductQuery.BuildPagination` | index.js:55-65 | `totalProducts` echoes the count, `currentPage` and `pageSize` echo page and limit, `totalPages` is the least count of pages holding all products, 0 iff none |
| `Documents.StrLe` | index.js:49 | a string sorts no later than every string it is a prefix of, itself included |
| `Documents.ValueLe` | index.js:49 | the order is reflexive; null (a missing field) sorts before every other value, and only null sorts at or below null |
| `Documents.ValueLeTotal` | index.js:49 | any two field values are comparable by the store's sort order |
| `Documents.ValueLeTransitive` | index.js:49 | the store's sort order on values is transitive |
| `Documents.ValueLeAntisymmetric` | index.js:49 | two values ordered both ways are equal |
| `Listing.RowMatches` | index.js:40-42 | a document satisfies the filter iff it has a `category` field equal to the requested string (when one is requested), a string `title` the pattern matches (when a search is given), and an `addedToCart` field equal to the requested boolean (when given); a missing field never satisfies a constraint; the empty filter accepts every document |
| `Listing.Filtered` | index.js:44 | the kept rows are exactly the input rows the predicate accepts, a sub-multiset of the input |
| `Listing.SelectUnconstrained` | index.js:38-43 | a filter with no constraint keeps every document, in order |
| `Listing.Insert` | index.js:52-53 | inserting into a listing adds exactly that document |
| `Listing.InsertSorted` | index.js:52-53 | inserting into a sorted listing keeps it sorted |
| `Listing.Sort` | index.js:49-53 | the sorted listing is a permutation of its input |
| `Listing.SortSorted` | index.js:49-53 | the sorted listing is ordered on the sort field in the requested direction |
| `Listing.Window` | index.js:46-53 | the page holds at most `limit` items, namely the items at positions skip, skip + 1, … of the listing, and nothing when skip is past the end |
| `Listing.SortedWindow` | index.js:46-53 | a page of the sorted listing is sorted and holds only listed documents |
| `Listing.FindPage` | index.js:46-53 | for any order `scan` in which the store reads the matching documents, the sorted listing is a sorted permutation of the matching documents, and the page is exactly its window from `skip` (its length fixed by `skip`, `limit` and the number of matches): at most `limit` documents, each from the collection and accepted by the filter, in sort order |
| `Listing.SortedArrangementsAgreeOnKeys` | index.js:49-53 | two sorted arrangements of the same documents carry the same sort key at every position |
| `Listing.FindPageScanOnlyReordersTies` | index.js:46-53 | whatever order the store reads the matching documents in, the page has the same length and the same sort key at every position: the read order only decides which of several tied documents appear where |
| `Listing.ConsSorted` | index.js:49-53 | a document that may precede every document of a sorted listing can be put in front of it |
| `Listing.ItemOnItsPage` | index.js:46-55 | every item at position i appears on page ⌊i / limit⌋ + 1 at offset i mod limit, and that page is at most `totalPages` |
| `Listing.PastLastPageEmpty` | index.js:46-55 | a page after `totalPages` is empty |
| `Store.CountFilteredRows` | index.js:44 | counting the accepted rows of the natural-order listing equals counting the accepted stored keys |
| `Store.StripId` | index.js:89-90 | the update document is the body without `_id` and with every other field unchanged |
| `Store.SetFields` | index.js:93 | `$set`: supplied fields overwrite or are added, every other field keeps its value |
| `Store.ApplySet` | index.js:92-96 | the update touches only the document under the key, keeps the key set, and merges the supplied fields into it |
| `Store.ApplySetIdempotent` | index.js:93-96 | applying the same `$set` twice gives the same store as applying it once |
| `Store.Collection.InsertOne` | index.js:80 | the document is stored under its own `_id` or the generated one, appended to the natural order; an `_id` in use is refused with nothing changed; the invariant is kept |
| `Store.Collection.FindOne` | index.js:72 | a document is returned iff one has that key, and it is that document |
| `Store.Collection.UpdateOne` | index.js:96 | no match changes nothing and reports 0/0; a `$set` naming a different `_id` is refused with nothing changed; otherwise the fields are merged, one document matched, modified iff it changed |
| `Store.Collection.DeleteOne` | index.js:106 | the key is removed from map and order, the count is 1 iff it was present; the invariant is kept |
| `Store.Collection.CountDocuments` | index.js:44 | the count is the number of stored documents the filter accepts |
| `Store.Collection.Find` | index.js:52-53 | at most `limit` documents, each stored and accepted by the filter, sorted; exactly the window from `skip` of a sorted permutation of the matching documents, ties broken by the store's read order `scan` |
| `Catalog.GetProducts` | index.js:28-66 | the data is the find result for the built filter and options, for whatever order the store reads the matches in; at most `pageSize` items, each matching the filter (the category exactly, the cart flag decoded); `totalProducts` counts every matching product, not the page; the pagination is the one built from that count |
| `Catalog.PageWithinTotal` | index.js:44-53 | a page never holds more products than the total matching count |
| `Catalog.AbsentParametersMatchAll` | index.js:38-44 | without category, search or addedToCart every product matches and the count is the collection's size |
| `Catalog.GetProduct` | index.js:70-74 | the answer carries the product with that id, or null when there is none |
| `Catalog.PostProduct` | index.js:77-82 | the body is inserted as given (under its `_id` or a generated one) and its key appended to the natural order, unless that `_id` is taken, in which case nothing changes |
| `Catalog.PutProduct` | index.js:85-101 | the store becomes the `$set` of the body without `_id`; keys and natural order are unchanged; stripping `_id` removes the one refusal the model covers (a changed `_id`), so the model's update always answers with the store's result; one document matched iff the id exists, and one modified iff its fields changed |
| `Catalog.DeleteProduct` | index.js:104-108 | the product is removed from the store and from the natural order, which otherwise keeps its sequence; the count says whether it existed |
| `Catalog.Summarize` | index.js:122-127 | a category's entry keeps its `_id`, has a `name` iff the category has one (and then that name), and counts at most all products, 0 exactly when no product's `category` equals the category's `name` |
| `Catalog.JoinCount` | index.js:113-127 | a category's count is at most the number of products, and 0 exactly when no product's `category` equals the category's `name` |
| `Catalog.SummarizeAll` | index.js:112-129 | one summary per category, in the categories' order |
| `Catalog.JoinCountIsProductCount` | index.js:113-127 | a category's count is the number of stored products whose `category` equals its `name` (missing equals missing) |
| `Catalog.GetCategories` | index.js:111-131 | one entry per category, in the collection's natural order (taken as insertion order), with its `_id`, its `name` when it has one, and the number of products whose `category` equals that name (0 when none) |
| `Catalog.PostCategory` | index.js:134-138 | the body is inserted as given and its key appended to the natural order (the end of the collection's natural order), unless its `_id` is taken, in which case nothing changes |
| `Catalog.PutCategory` | index.js:141-148 | the update succeeds iff the body does not name an `_id` other than the category's own; a refusal is `ImmutableId` and changes nothing; a success `$set`s the body's other fields; one document matched iff the id exists, one modified iff it changed; keys and natural order never change |
| `Catalog.EchoedCategoryIdRefused` | index.js:141-148 | a category update whose body carries the category's `_id` as a string is refused by the store |
| `Catalog.PutCategoryStripped` | index.js:89-96 | with `_id` stripped as for products, a category update cannot hit the changed-`_id` refusal, keeps the category's `_id` and the natural order; matched and modified counts as for products |
| `Catalog.DeleteCategory` | index.js:151-155 | the category is removed from the store and from the natural order, which otherwise keeps its sequence; the count says whether it existed |

## Left out

- Express routing, JSON serialisation, `res.send`, CORS and the root greeting route: HTTP plumbing with nothing to verify.
- The MongoDB client, its connection, the async `run` wrapper and concurrency between requests: the store is one object, each handler one sequential step.
- ObjectId parsing of path ids and its exceptions: a path id is given as the ObjectId number it parses to.
- Regular-expression semantics of the title search (`$regex` with option `i`, an unescaped pattern): the parameter `matches(title, pattern)` decides it.
- Non-numeric, zero or negative `page` and `limit` (NaN arithmetic, Mongo's negative-skip error, `limit: 0` meaning "no limit", `Math.ceil` on floating point): `page` and `limit` are positive integers (type `Pos`), and totalPages uses integer ceiling division.
- `parseInt` on a string that only starts with digits ("2abc"): the model takes the number itself.
- Query parameters repeated in the URL (arrays) and array- or object-valued document fields: values are null, numbers, strings, ObjectIds and booleans only; a category filter does not match inside arrays.
- Object-valued query parameters (`?category[$ne]=Roses`, `?search[$gt]=`): the query parser turns them into objects that reach the filter unchanged, so a client can inject query operators (a `$ne` category returns every product outside that category; an object `$regex` is refused by the store). Every parameter of `Query` is a string, so this operator injection is not modelled.
- Numbers are exact reals, not IEEE doubles. Strings compare code point by code point, which is the same order as the store's binary comparison of their UTF-8 bytes.
- Dotted field names in `$set` (nested updates), empty and `$`-prefixed field names, and field order inside a document: a document is a map from field name to value. The store refuses a `$set` with an empty or `$`-prefixed field name; for PUT /products/:id that refusal ends in the 500 response `Failed to update product`, and for PUT /categories/:id in an unanswered request. The model's `$set` accepts any field name.
- Output order of the category listing: the aggregation has no sort stage and the store does not promise to return categories in insertion order; the model takes that order to be the collection's natural (insertion) order.
- The sort field: `sortBy` reaches the store unchecked. The store refuses an empty sort field and reads a dotted one as a path into subdocuments, while the model sorts on the top-level field with exactly that name (missing, hence null, for an empty or dotted name).
- Tie order between documents with equal sort keys is not fixed by the store. The model makes the order in which the store reads the matching documents a parameter `scan` (any permutation of them), and the stable sort keeps ties in that order. Two requests for neighbouring pages may therefore use different scans, so a document with a tied key can appear on both pages or on neither; the model states this only through `scan` being free per call.
- Store failures (network, timeouts) and the 500 response they lead to: the only store errors modelled are a duplicate `_id` and an attempt to change `_id`.
- `console.log` calls: logging only.
- No NotFound response: GET /products/:id answers `data: null` on a miss, and delete and update return the store's counts (0 when nothing matched), as the code does.
- Store failures that the handlers do not catch: insertOne with an `_id` already in use (POST /products, POST /categories) and the refused category update have no `try` around them, so the request gets no answer. The model returns `Err` from those members; it stands for that unanswered request, not for an error reply.

## Findings

| source | as written | input that shows it | evidently intended | confidence | as-written member | corrected member |
|---|---|---|---|---|---|---|
| index.js:141-148 | the category update `$set`s the whole request body, `_id` included | PUT /categories/:id with the category as fetched, e.g. `{"_id": "<that id>", "name": "Orchids"}`: the `_id` arrives as a string, differs from the stored ObjectId, and the store refuses the update; with no `try` around it the rejection is unhandled: the request gets no answer, and under Node 15 or later an unhandled rejection ends the server process | strip `_id` from the body, as the product update at index.js:89-90 does | not executed; medium (depends on clients echoing `_id`) | `Catalog.EchoedCategoryIdRefused` | `Catalog.PutCategoryStripped` |

=== FILE: catalog.dfy ===
/**
 * The catalog's route handlers over the products and categories collections:
 * the product listing with filters, sort and pagination, single-product
 * lookup, product and category insert, update and delete, and the category
 * listing with its per-category product count.
 *
 * An identifier in a request path is the ObjectId it parses to (`oid`); the
 * regular-expression engine is the parameter `matches`.
 */
module Catalog {
  import opened Documents
  import opened ProductQuery
  import opened Listing
  import opened Store

  /** The body of GET /products. */
  datatype ProductsResponse = ProductsResponse(status: bool, data: seq<Row>, pagination: Pagination)

  /** The body of GET /products/:id; `data` is null when no product has that id. */
  datatype ProductResponse = ProductResponse(status: bool, data: Option<Row>)

  /** What PUT /products/:id sends: the store's update result, or the 500 error body. */
  datatype PutResponse = Updated(result: UpdateResult) | ServerError(message: string)

  /** One entry of GET /categories: the category's `_id`, its `name` if it has one, and its product count. */
  datatype CategorySummary = CategorySummary(id: Value, name: Option<Value>, totalProducts: nat)

  /**
   * GET /products: count the matching products, fetch one sorted page, report
   * the pagination. `scan` is the order in which the store reads the matching
   * products.
   */
  method GetProducts(products: Collection, q: Query, matches: (string, string) -> bool, scan: seq<Row>)
    returns (resp: ProductsResponse)
    requires products.Valid()
    requires multiset(scan) == multiset(Select(products.Rows(), BuildFilter(q), matches))
    ensures resp.status
    ensures resp.data == products.Find(scan, BuildFilter(q), BuildOptions(q), matches)
    ensures |resp.data| <= resp.pagination.pageSize
    ensures forall r :: r in resp.data ==> RowMatches(r, BuildFilter(q), matches)
    ensures resp.pagination.totalProducts
         == |set k | k in products.docs && RowMatches(Row(k, products.docs[k]), BuildFilter(q), matches)|
    ensures resp.pagination == BuildPagination(resp.pagination.totalProducts, q)
    ensures |resp.data| <= resp.pagination.totalProducts
    ensures Truthy(q.category) ==>
              forall r :: r in resp.data ==> FieldValue(r, "category") == Str(q.category.value)
    ensures q.addedToCart.Some? ==>
              forall r :: r in resp.data ==> FieldValue(r, "addedToCart") == Bool(q.addedToCart.value == "true")
  {
    var filter := BuildFilter(q);
    var total := products.CountDocuments(filter, matches);
    var options := BuildOptions(q);
    var data := products.Find(scan, filter, options, matches);
    PageWithinTotal(products, scan, filter, options, matches);
    var totalPages := TotalPages(total, options.limit);
    resp := ProductsResponse(true, data, Pagination(total, totalPages, PageOf(q), options.limit));
  }

  /** The page never holds more products than the count of all matching products. */
  lemma PageWithinTotal(products: Collection, scan: seq<Row>, f: Filter, o: FindOptions, matches: (string, string) -> bool)
    requires products.Valid()
    requires multiset(scan) == multiset(Select(products.Rows(), f, matches))
    ensures |products.Find(scan, f, o, matches)| <= products.CountDocuments(f, matches)
  {
    var selected := Select(products.Rows(), f, matches);
    var sorted := Sort(scan, o.sortField, o.direction);
    assert |sorted| == |multiset(sorted)| == |multiset(selected)| == |selected|;
  }

  /** Without category, search or addedToCart every stored product matches, in natural order. */
  lemma AbsentParametersMatchAll(products: Collection, q: Query, matches: (string, string) -> bool)
    requires products.Valid()
    requires !Truthy(q.category) && !Truthy(q.search) && q.addedToCart.None?
    ensures Select(products.Rows(), BuildFilter(q), matches) == products.Rows()
    ensures products.CountDocuments(BuildFilter(q), matches) == |products.docs|
  {
    assert BuildFilter(q) == Filter(None, None, None);
    SelectUnconstrained(products.Rows(), matches);
    assert (set k | k in products.docs && RowMatches(Row(k, products.docs[k]), BuildFilter(q), matches))
        == products.docs.Keys;
  }

  /** GET /products/:id: the product with that id, or null. */
  method GetProduct(products: Collection, oid: nat) returns (resp: ProductResponse)
    ensures resp.status
    ensures resp.data.Some? <==> ObjectId(oid) in products.docs
    ensures resp.data.Some? ==> resp.data.value == Row(ObjectId(oid), products.docs[ObjectId(oid)])
  {
    resp := ProductResponse(true, products.FindOne(ObjectId(oid)));
  }

  /**
   * POST /products: insert the body verbatim. A taken `_id` makes the store
   * fail; the handler does not catch that, so `Err` stands for a request that
   * gets no answer, not for a reply.
   */
  method PostProduct(products: Collection, body: Doc, generated: nat) returns (r: Result<Value>)
    requires products.Valid()
    modifies products
    ensures products.Valid()
    ensures var key := if IdField in body then body[IdField] else ObjectId(generated);
            if key in old(products.docs) then
              r == Err(DuplicateKey(key)) && products.docs == old(products.docs) && products.order == old(products.order)
            else
              && r == Ok(key) && products.docs == old(products.docs)[key := StripId(body)]
              && products.order == old(products.order) + [key]
  {
    r := products.InsertOne(body, generated);
  }

  /**
   * PUT /products/:id: `$set` the body without its `_id`. Stripping `_id`
   * removes the one refusal the store model has (a changed `_id`), so in this
   * model the error response is not reached; refusals the model does not
   * cover, such as empty or `$`-prefixed field names, would reach it.
   */
  method PutProduct(products: Collection, oid: nat, body: Doc) returns (resp: PutResponse)
    requires products.Valid()
    modifies products
    ensures products.Valid()
    ensures products.order == old(products.order)
    ensures products.docs == ApplySet(old(products.docs), ObjectId(oid), StripId(body))
    ensures products.docs.Keys == old(products.docs.Keys)
    ensures resp.Updated?
    ensures resp.result.matchedCount == if ObjectId(oid) in old(products.docs) then 1 else 0
    ensures resp.result.modifiedCount
         == if ObjectId(oid) in old(products.docs)
               && products.docs[ObjectId(oid)] != old(products.docs)[ObjectId(oid)] then 1 else 0
  {
    var update := StripId(body);
    assert StripId(update) == update;
    var r := products.UpdateOne(ObjectId(oid), update);
    match r
    case Ok(result) => resp := Updated(result);
    case Err(_) => resp := ServerError("Failed to update product");
  }

  /** DELETE /products/:id. */
  method DeleteProduct(products: Collection, oid: nat) returns (deletedCount: nat)
    requires products.Valid()
    modifies products
    ensures products.Valid()
    ensures deletedCount == if ObjectId(oid) in old(products.docs) then 1 else 0
    ensures products.docs == old(products.docs) - {ObjectId(oid)}
    ensures products.order == RemoveKey(old(products.order), ObjectId(oid))
  {
    deletedCount := products.DeleteOne(ObjectId(oid));
  }

  /** The lookup's join condition: the product's `category` equals the category's `name`. */
  function JoinsTo(category: Row): Row -> bool {
    p => FieldValue(p, "category") == FieldValue(category, "name")
  }

  /** The number of products a category's `name` joins to: equal `category` values, missing equal to missing. */
  function JoinCount(category: Row, products: seq<Row>): (n: nat)
    ensures n <= |products|
    ensures n == 0 <==> forall p :: p in products ==> FieldValue(p, "category") != FieldValue(category, "name")
  {
    var joined := Filtered(products, JoinsTo(category));
    assert joined != [] ==> joined[0] in joined;
    |joined|
  }

  /**
   * One entry of the category listing: the category's `_id`, its `name` when
   * it has one, and the size of the list of products joined to it.
   */
  function Summarize(category: Row, products: seq<Row>): (s: CategorySummary)
    ensures s.id == category.id
    ensures s.name.Some? <==> "name" in category.fields
    ensures s.name.Some? ==> s.name.value == category.fields["name"]
    ensures s.totalProducts <= |products|
    ensures s.totalProducts == 0 <==>
              forall p :: p in products ==> FieldValue(p, "category") != FieldValue(category, "name")
  {
    CategorySummary(
      category.id,
      if "name" in category.fields then Some(category.fields["name"]) else None,
      JoinCount(category, products))
  }

  /** Every category, in natural order, with its product count. */
  function SummarizeAll(categories: seq<Row>, products: seq<Row>): (r: seq<CategorySummary>)
    ensures |r| == |categories|
    ensures forall i :: 0 <= i < |r| ==> r[i] == Summarize(categories[i], products)
  {
    if categories == [] then []
    else [Summarize(categories[0], products)] + SummarizeAll(categories[1..], products)
  }

  /** A category's count is the number of stored products whose `category` equals its `name`. */
  lemma JoinCountIsProductCount(category: Row, products: Collection)
    requires products.Valid()
    ensures JoinCount(category, products.Rows())
         == |set k | k in products.docs
                     && FieldValue(Row(k, products.docs[k]), "category") == FieldValue(category, "name")|
  {
    var keep := JoinsTo(category);
    assert JoinCount(category, products.Rows()) == |Filtered(RowsOf(products.order, products.docs), keep)|;
    CountFilteredRows(products.order, products.docs, keep);
    assert KeptKeys(products.order, products.docs, keep)
        == (set k | k in products.docs
                    && FieldValue(Row(k, products.docs[k]), "category") == FieldValue(category, "name"));
  }

  /** GET /categories: each category with the number of products in it. */
  method GetCategories(categories: Collection, products: Collection) returns (data: seq<CategorySummary>)
    requires categories.Valid() && products.Valid()
    ensures |data| == |categories.Rows()|
    ensures forall i :: 0 <= i < |data| ==>
              var c := categories.Rows()[i];
              && data[i].id == c.id
              && c.id in categories.docs
              && (data[i].name.Some? <==> "name" in c.fields)
              && (data[i].name.Some? ==> data[i].name.value == c.fields["name"])
              && data[i].totalProducts
                 == |set k | k in products.docs
                             && FieldValue(Row(k, products.docs[k]), "category") == FieldValue(c, "name")|
  {
    var rows := categories.Rows();
    data := SummarizeAll(rows, products.Rows());
    forall i | 0 <= i < |data|
      ensures data[i].totalProducts
           == |set k | k in products.docs
                       && FieldValue(Row(k, products.docs[k]), "category") == FieldValue(rows[i], "name")|
      ensures rows[i].id in categories.docs
    {
      assert rows[i] in rows;
      JoinCountIsProductCount(rows[i], products);
    }
  }

  /**
   * POST /categories: insert the body verbatim. As for products, `Err` on a
   * taken `_id` stands for an uncaught store failure: the request gets no answer.
   */
  method PostCategory(categories: Collection, body: Doc, generated: nat) returns (r: Result<Value>)
    requires categories.Valid()
    modifies categories
    ensures categories.Valid()
    ensures var key := if IdField in body then body[IdField] else ObjectId(generated);
            if key in old(categories.docs) then
              r == Err(DuplicateKey(key)) && categories.docs == old(categories.docs) && categories.order == old(categories.order)
            else
              && r == Ok(key) && categories.docs == old(categories.docs)[key := StripId(body)]
              && categories.order == old(categories.order) + [key]
  {
    r := categories.InsertOne(body, generated);
  }

  /**
   * PUT /categories/:id: `$set` the whole body, `_id` included. A body whose
   * `_id` differs from the category's own is refused by the store.
   */
  method PutCategory(categories: Collection, oid: nat, body: Doc) returns (r: Result<UpdateResult>)
    requires categories.Valid()
    modifies categories
    ensures categories.Valid()
    ensures categories.order == old(categories.order)
    ensures categories.docs.Keys == old(categories.docs.Keys)
    ensures r.Ok? <==> !(ObjectId(oid) in old(categories.docs) && IdField in body && body[IdField] != ObjectId(oid))
    ensures r.Err? ==> r.error == ImmutableId && categories.docs == old(categories.docs)
    ensures r.Ok? ==> categories.docs == ApplySet(old(categories.docs), ObjectId(oid), StripId(body))
    ensures r.Ok? ==> r.value.matchedCount == if ObjectId(oid) in old(categories.docs) then 1 else 0
    ensures r.Ok? ==>
              r.value.modifiedCount
              == if ObjectId(oid) in old(categories.docs)
                    && categories.docs[ObjectId(oid)] != old(categories.docs)[ObjectId(oid)] then 1 else 0
  {
    r := categories.UpdateOne(ObjectId(oid), body);
  }

  /**
   * A client that sends back the category it fetched, `_id` included (as the
   * JSON string it was serialised to), has its update refused by the store.
   */
  method EchoedCategoryIdRefused() returns (r: Result<UpdateResult>)
    ensures r == Err(ImmutableId)
  {
    var categories := new Collection();
    var inserted := categories.InsertOne(map["name" := Str("Roses")], 1);
    assert inserted == Ok(ObjectId(1));
    r := PutCategory(categories, 1, map[IdField := Str("1"), "name" := Str("Orchids")]);
  }

  /**
   * PUT /categories/:id with the `_id` stripping the product update uses:
   * the changed-`_id` refusal cannot occur, and the category keeps its `_id`.
   */
  method PutCategoryStripped(categories: Collection, oid: nat, body: Doc) returns (result: UpdateResult)
    requires categories.Valid()
    modifies categories
    ensures categories.Valid()
    ensures categories.order == old(categories.order)
    ensures categories.docs == ApplySet(old(categories.docs), ObjectId(oid), StripId(body))
    ensures categories.docs.Keys == old(categories.docs.Keys)
    ensures result.matchedCount == if ObjectId(oid) in old(categories.docs) then 1 else 0
    ensures result.modifiedCount
         == if ObjectId(oid) in old(categories.docs)
               && categories.docs[ObjectId(oid)] != old(categories.docs)[ObjectId(oid)] then 1 else 0
  {
    var update := StripId(body);
    assert StripId(update) == update;
    var r := categories.UpdateOne(ObjectId(oid), update);
    result := r.value;
  }

  /** DELETE /categories/:id. */
  method DeleteCategory(categories: Collection, oid: nat) returns (deletedCount: nat)
    requires categories.Valid()
    modifies categories
    ensures categories.Valid()
    ensures deletedCount == if ObjectId(oid) in old(categories.docs) then 1 else 0
    ensures categories.docs == old(categories.docs) - {ObjectId(oid)}
    ensures categories.order == RemoveKey(old(categories.order), ObjectId(oid))
  {
    deletedCount := categories.DeleteOne(ObjectId(oid));
  }
}

=== FILE: documents.dfy ===
/**
 * Documents of the catalog's document store: field values, documents, stored
 * rows, and the order in which the store compares values when it sorts.
 */
module Documents {

  datatype Option<T> = None | Some(value: T) {
    /** The carried value, or `default` when there is none. */
    function GetOr(default: T): T {
      match this
      case Some(v) => v
      case None => default
    }
  }

  /**
   * A field value, restricted to the BSON types the catalog's documents use.
   * Numbers are exact reals; an ObjectId is represented by its numeric value,
   * which orders ObjectIds as the store does (byte-wise, big-endian).
   */
  datatype Value =
    | Null
    | Num(n: real)
    | Str(s: string)
    | ObjectId(oid: nat)
    | Bool(b: bool)

  /** A document's fields, other than its primary key. */
  type Doc = map<string, Value>

  /** The name of the primary-key field. */
  const IdField: string := "_id"

  /** A stored document: its primary key and its other fields. */
  datatype Row = Row(id: Value, fields: Doc)

  /**
   * The value a query, a sort or a join sees at `field`: the key for "_id",
   * and null for a field the document does not have.
   */
  function FieldValue(r: Row, field: string): Value {
    if field == IdField then r.id
    else if field in r.fields then r.fields[field]
    else Null
  }

  /** Position of a value's type in the store's cross-type comparison order. */
  function TypeRank(v: Value): nat {
    match v
    case Null => 0
    case Num(_) => 1
    case Str(_) => 2
    case ObjectId(_) => 3
    case Bool(_) => 4
  }

  /** Binary (code-point) lexicographic order on strings, shorter prefix first. */
  predicate StrLe(a: string, b: string): (le: bool)
    ensures a <= b ==> le
  {
    if a == [] then true
    else if b == [] then false
    else if a[0] != b[0] then a[0] < b[0]
    else StrLe(a[1..], b[1..])
  }

  /**
   * The store's comparison of two values: by type first
   * (null < numbers < strings < ObjectIds < booleans), then within the type.
   */
  predicate ValueLe(a: Value, b: Value): (le: bool)
    ensures a == b ==> le
    ensures a == Null ==> le
    ensures b == Null ==> (le <==> a == Null)
  {
    if TypeRank(a) != TypeRank(b) then TypeRank(a) < TypeRank(b)
    else match (a, b)
      case (Num(x), Num(y)) => x <= y
      case (Str(x), Str(y)) => StrLe(x, y)
      case (ObjectId(x), ObjectId(y)) => x <= y
      case (Bool(x), Bool(y)) => !x || y
      case _ => true
  }

  lemma {:induction false} StrLeTotal(a: string, b: string)
    ensures StrLe(a, b) || StrLe(b, a)
  {
    if a != [] && b != [] && a[0] == b[0] {
      StrLeTotal(a[1..], b[1..]);
    }
  }

  lemma {:induction false} StrLeTransitive(a: string, b: string, c: string)
    requires StrLe(a, b) && StrLe(b, c)
    ensures StrLe(a, c)
  {
    if a != [] && b != [] && c != [] && a[0] == b[0] == c[0] {
      StrLeTransitive(a[1..], b[1..], c[1..]);
    }
  }

  lemma {:induction false} StrLeAntisymmetric(a: string, b: string)
    requires StrLe(a, b) && StrLe(b, a)
    ensures a == b
  {
    if a != [] && b != [] {
      StrLeAntisymmetric(a[1..], b[1..]);
      assert a == [a[0]] + a[1..];
      assert b == [b[0]] + b[1..];
    }
  }

  /** Any two values are comparable. */
  lemma ValueLeTotal(a: Value, b: Value)
    ensures ValueLe(a, b) || ValueLe(b, a)
  {
    if a.Str? && b.Str? {
      StrLeTotal(a.s, b.s);
    }
  }

  lemma ValueLeTransitive(a: Value, b: Value, c: Value)
    requires ValueLe(a, b) && ValueLe(b, c)
    ensures ValueLe(a, c)
  {
    if a.Str? && b.Str? && c.Str? {
      StrLeTransitive(a.s, b.s, c.s);
    }
  }

  /** Two values that compare equal both ways are the same value. */
  lemma ValueLeAntisymmetric(a: Value, b: Value)
    requires ValueLe(a, b) && ValueLe(b, a)
    ensures a == b
  {
    if a.Str? && b.Str? {
      StrLeAntisymmetric(a.s, b.s);
    }
  }
}

=== FILE: listing.dfy ===
/**
 * What the store's find does with a filter and find options: select the
 * matching documents, sort them on one field, then cut out the page.
 */
module Listing {
  import opened Documents
  import opened ProductQuery

  /**
   * A document satisfies the filter: an exact category string, a title (a
   * string) that the case-insensitive `pattern` matches, and an exact boolean
   * cart flag. `matches(title, pattern)` stands for the regular-expression engine.
   */
  predicate RowMatches(r: Row, f: Filter, matches: (string, string) -> bool): (ok: bool)
    ensures ok <==>
      && (f.category.Some? ==> "category" in r.fields && r.fields["category"] == Str(f.category.value))
      && (f.titlePattern.Some? ==>
            && "title" in r.fields && r.fields["title"].Str?
            && matches(r.fields["title"].s, f.titlePattern.value))
      && (f.addedToCart.Some? ==> "addedToCart" in r.fields && r.fields["addedToCart"] == Bool(f.addedToCart.value))
    ensures f == Filter(None, None, None) ==> ok
  {
    && (f.category.Some? ==> FieldValue(r, "category") == Str(f.category.value))
    && (f.titlePattern.Some? ==>
          FieldValue(r, "title").Str? && matches(FieldValue(r, "title").s, f.titlePattern.value))
    && (f.addedToCart.Some? ==> FieldValue(r, "addedToCart") == Bool(f.addedToCart.value))
  }

  /** The rows `keep` accepts, in their original order. */
  function Filtered(rows: seq<Row>, keep: Row -> bool): (s: seq<Row>)
    ensures |s| <= |rows|
    ensures forall r :: r in s <==> r in rows && keep(r)
    ensures multiset(s) <= multiset(rows)
  {
    if rows == [] then []
    else
      var rest := Filtered(rows[1..], keep);
      assert rows == [rows[0]] + rows[1..];
      if keep(rows[0]) then [rows[0]] + rest else rest
  }

  /** The documents that satisfy the filter, in their original order. */
  function Select(rows: seq<Row>, f: Filter, matches: (string, string) -> bool): seq<Row> {
    Filtered(rows, r => RowMatches(r, f, matches))
  }

  /** A filter with no constraint keeps every document, in order. */
  lemma {:induction false} SelectUnconstrained(rows: seq<Row>, matches: (string, string) -> bool)
    ensures Select(rows, Filter(None, None, None), matches) == rows
  {
    if rows != [] {
      SelectUnconstrained(rows[1..], matches);
      assert rows == [rows[0]] + rows[1..];
    }
  }

  /** `a` may come before `b` when sorting on `field` in direction `dir`. */
  predicate InOrder(a: Row, b: Row, field: string, dir: Direction) {
    if dir == Ascending then ValueLe(FieldValue(a, field), FieldValue(b, field))
    else ValueLe(FieldValue(b, field), FieldValue(a, field))
  }

  lemma InOrderTotal(a: Row, b: Row, field: string, dir: Direction)
    ensures InOrder(a, b, field, dir) || InOrder(b, a, field, dir)
  {
    ValueLeTotal(FieldValue(a, field), FieldValue(b, field));
  }

  lemma InOrderTransitive(a: Row, b: Row, c: Row, field: string, dir: Direction)
    requires InOrder(a, b, field, dir) && InOrder(b, c, field, dir)
    ensures InOrder(a, c, field, dir)
  {
    if dir == Ascending {
      ValueLeTransitive(FieldValue(a, field), FieldValue(b, field), FieldValue(c, field));
    } else {
      ValueLeTransitive(FieldValue(c, field), FieldValue(b, field), FieldValue(a, field));
    }
  }

  lemma InOrderAntisymmetric(a: Row, b: Row, field: string, dir: Direction)
    requires InOrder(a, b, field, dir) && InOrder(b, a, field, dir)
    ensures FieldValue(a, field) == FieldValue(b, field)
  {
    ValueLeAntisymmetric(FieldValue(a, field), FieldValue(b, field));
  }

  /** Every document comes no later than every document after it. */
  predicate SortedOn(s: seq<Row>, field: string, dir: Direction) {
    forall i, j :: 0 <= i < j < |s| ==> InOrder(s[i], s[j], field, dir)
  }

  /** Insert `x` after every element that may precede it, keeping equal keys in arrival order. */
  function Insert(x: Row, s: seq<Row>, field: string, dir: Direction): (r: seq<Row>)
    ensures multiset(r) == multiset(s) + multiset{x}
    ensures |r| == |s| + 1
  {
    if s == [] then [x]
    else if !InOrder(s[0], x, field, dir) then [x] + s
    else
      assert s == [s[0]] + s[1..];
      [s[0]] + Insert(x, s[1..], field, dir)
  }

  /** A document that may precede every document of a sorted listing may be put in front of it. */
  lemma ConsSorted(a: Row, t: seq<Row>, field: string, dir: Direction)
    requires SortedOn(t, field, dir)
    requires forall y :: y in t ==> InOrder(a, y, field, dir)
    ensures SortedOn([a] + t, field, dir)
  {
    var r := [a] + t;
    forall i, j | 0 <= i < j < |r|
      ensures InOrder(r[i], r[j], field, dir)
    {
      assert r[j] == t[j - 1];
      if i > 0 {
        assert r[i] == t[i - 1];
      }
    }
  }

  lemma {:induction false} InsertSorted(x: Row, s: seq<Row>, field: string, dir: Direction)
    requires SortedOn(s, field, dir)
    ensures SortedOn(Insert(x, s, field, dir), field, dir)
  {
    if s == [] {
    } else if !InOrder(s[0], x, field, dir) {
      InOrderTotal(s[0], x, field, dir);
      forall y | y in s
        ensures InOrder(x, y, field, dir)
      {
        var j :| 0 <= j < |s| && s[j] == y;
        if j > 0 {
          InOrderTransitive(x, s[0], y, field, dir);
        }
      }
      ConsSorted(x, s, field, dir);
    } else {
      var rest := s[1..];
      assert SortedOn(rest, field, dir) by {
        forall i, j | 0 <= i < j < |rest|
          ensures InOrder(rest[i], rest[j], field, dir)
        {
          assert rest[i] == s[i + 1] && rest[j] == s[j + 1];
        }
      }
      var tail := Insert(x, rest, field, dir);
      InsertSorted(x, rest, field, dir);
      forall y | y in tail
        ensures InOrder(s[0], y, field, dir)
      {
        assert y in multiset(tail);
        if y != x {
          assert y in multiset(rest);
          var k :| 0 <= k < |rest| && rest[k] == y;
          assert s[k + 1] == y;
        }
      }
      ConsSorted(s[0], tail, field, dir);
    }
  }

  /** Insertion sort on one field; documents with equal keys keep their input order. */
  function Sort(s: seq<Row>, field: string, dir: Direction): (r: seq<Row>)
    ensures multiset(r) == multiset(s)
    ensures |r| == |s|
  {
    if s == [] then []
    else
      var last := |s| - 1;
      assert s == s[..last] + [s[last]];
      Insert(s[last], Sort(s[..last], field, dir), field, dir)
  }

  lemma {:induction false} SortSorted(s: seq<Row>, field: string, dir: Direction)
    ensures SortedOn(Sort(s, field, dir), field, dir)
  {
    if s != [] {
      var last := |s| - 1;
      SortSorted(s[..last], field, dir);
      InsertSorted(s[last], Sort(s[..last], field, dir), field, dir);
    }
  }

  /** The items at positions [skip, skip + limit) of `s`, as many as there are. */
  function Window(s: seq<Row>, skip: nat, limit: Pos): (w: seq<Row>)
    ensures |w| <= limit
    ensures skip < |s| ==> |w| == if skip + limit <= |s| then limit else |s| - skip
    ensures skip >= |s| ==> w == []
    ensures forall i :: 0 <= i < |w| ==> skip + i < |s| && w[i] == s[skip + i]
  {
    if skip >= |s| then []
    else if skip + limit <= |s| then s[skip..skip + limit]
    else s[skip..]
  }

  /** A window of a sorted sequence is sorted. */
  lemma WindowSorted(s: seq<Row>, skip: nat, limit: Pos, field: string, dir: Direction)
    requires SortedOn(s, field, dir)
    ensures SortedOn(Window(s, skip, limit), field, dir)
  {
    var w := Window(s, skip, limit);
    forall i, j | 0 <= i < j < |w|
      ensures InOrder(w[i], w[j], field, dir)
    {
      assert w[i] == s[skip + i] && w[j] == s[skip + j];
    }
  }

  /** A window holds only items of the sequence it is cut from. */
  lemma WindowWithin(s: seq<Row>, skip: nat, limit: Pos)
    ensures forall x :: x in Window(s, skip, limit) ==> x in s
  {
    var w := Window(s, skip, limit);
    forall x | x in w
      ensures x in s
    {
      var i :| 0 <= i < |w| && w[i] == x;
      assert s[skip + i] == x;
    }
  }

  /** A page cut from the sorted listing is sorted and holds only listed items. */
  lemma SortedWindow(s: seq<Row>, skip: nat, limit: Pos, field: string, dir: Direction)
    ensures SortedOn(Sort(s, field, dir), field, dir)
    ensures SortedOn(Window(Sort(s, field, dir), skip, limit), field, dir)
    ensures forall x :: x in Window(Sort(s, field, dir), skip, limit) ==> x in s
  {
    var sorted := Sort(s, field, dir);
    SortSorted(s, field, dir);
    WindowSorted(sorted, skip, limit, field, dir);
    WindowWithin(sorted, skip, limit);
    forall x | x in sorted
      ensures x in s
    {
      assert x in multiset(sorted);
    }
  }

  /**
   * The page find returns: the window of the sorted selection. `scan` is the
   * selection in the order the store happens to read it, which the store does
   * not fix; the sort keeps documents with equal keys in that order, so it
   * decides how ties fall across pages.
   */
  function FindPage(rows: seq<Row>, scan: seq<Row>, f: Filter, o: FindOptions, matches: (string, string) -> bool)
    : (page: seq<Row>)
    requires multiset(scan) == multiset(Select(rows, f, matches))
    ensures |page| <= o.limit
    ensures forall r :: r in page ==> r in rows && RowMatches(r, f, matches)
    ensures SortedOn(page, o.sortField, o.direction)
    ensures var sorted := Sort(scan, o.sortField, o.direction);
            && SortedOn(sorted, o.sortField, o.direction)
            && multiset(sorted) == multiset(Select(rows, f, matches))
            && |page| == (if o.skip >= |sorted| then 0
                          else if o.skip + o.limit <= |sorted| then o.limit
                          else |sorted| - o.skip)
            && forall i :: 0 <= i < |page| ==> page[i] == sorted[o.skip + i]
  {
    var selected := Select(rows, f, matches);
    SortedWindow(scan, o.skip, o.limit, o.sortField, o.direction);
    forall r | r in scan
      ensures r in rows && RowMatches(r, f, matches)
    {
      assert r in multiset(selected);
    }
    Window(Sort(scan, o.sortField, o.direction), o.skip, o.limit)
  }

  /** Taking one item out of a sorted sequence leaves it sorted. */
  lemma RemoveAtSorted(t: seq<Row>, k: nat, field: string, dir: Direction)
    requires k < |t| && SortedOn(t, field, dir)
    ensures SortedOn(t[..k] + t[k + 1..], field, dir)
  {
    var u := t[..k] + t[k + 1..];
    forall i, j | 0 <= i < j < |u|
      ensures InOrder(u[i], u[j], field, dir)
    {
      var ti := if i < k then i else i + 1;
      var tj := if j < k then j else j + 1;
      assert u[i] == t[ti] && u[j] == t[tj];
    }
  }

  lemma RemoveAtMultiset(t: seq<Row>, k: nat)
    requires k < |t|
    ensures multiset(t[..k] + t[k + 1..]) == multiset(t) - multiset{t[k]}
  {
    assert t == t[..k] + [t[k]] + t[k + 1..];
  }

  /** Taking the first item of `s` and the same item from `t` leaves equal multisets. */
  lemma RemoveMatched(s: seq<Row>, t: seq<Row>, k: nat)
    requires multiset(s) == multiset(t) && s != [] && k < |t| && t[k] == s[0]
    ensures multiset(s[1..]) == multiset(t[..k] + t[k + 1..])
  {
    assert s == [s[0]] + s[1..];
    assert multiset(s[1..]) == multiset(s) - multiset{s[0]};
    RemoveAtMultiset(t, k);
  }

  /**
   * In a sorted sequence whose item k may precede its first item, the items
   * up to k all carry the same key.
   */
  lemma TiedPrefix(t: seq<Row>, k: nat, i: nat, field: string, dir: Direction)
    requires SortedOn(t, field, dir) && 0 < i <= k < |t|
    requires InOrder(t[k], t[0], field, dir)
    ensures FieldValue(t[i - 1], field) == FieldValue(t[i], field)
  {
    assert InOrder(t[i], t[k], field, dir) by { if i < k { assert InOrder(t[i], t[k], field, dir); } }
    assert InOrder(t[0], t[i - 1], field, dir) by { if i > 1 { assert InOrder(t[0], t[i - 1], field, dir); } }
    InOrderTransitive(t[i], t[k], t[0], field, dir);
    InOrderTransitive(t[i], t[0], t[i - 1], field, dir);
    assert InOrder(t[i - 1], t[i], field, dir);
    InOrderAntisymmetric(t[i - 1], t[i], field, dir);
  }

  /** The first items of two sorted arrangements of the same documents carry the same key. */
  lemma HeadsTie(s: seq<Row>, t: seq<Row>, field: string, dir: Direction) returns (k: nat)
    requires SortedOn(s, field, dir) && SortedOn(t, field, dir)
    requires multiset(s) == multiset(t) && s != []
    ensures k < |t| && t[k] == s[0]
    ensures InOrder(t[k], t[0], field, dir)
    ensures FieldValue(s[0], field) == FieldValue(t[0], field)
  {
    assert s[0] in multiset(t) && t[0] in multiset(s);
    k :| 0 <= k < |t| && t[k] == s[0];
    var m :| 0 <= m < |s| && s[m] == t[0];
    assert InOrder(t[k], t[0], field, dir) by { if k > 0 { assert InOrder(t[0], t[k], field, dir); } }
    assert InOrder(s[0], s[m], field, dir) by { if m > 0 { assert InOrder(s[0], s[m], field, dir); } }
    InOrderAntisymmetric(s[0], t[0], field, dir);
  }

  /** Keys agree position by position once the first item of `s` is matched with item k of `t`. */
  lemma ShiftKeys(s: seq<Row>, t: seq<Row>, k: nat, field: string)
    requires |s| == |t| && k < |t|
    requires FieldValue(s[0], field) == FieldValue(t[0], field)
    requires forall i :: 0 < i <= k ==> FieldValue(t[i - 1], field) == FieldValue(t[i], field)
    requires var s', t' := s[1..], t[..k] + t[k + 1..];
             forall i :: 0 <= i < |s'| ==> FieldValue(s'[i], field) == FieldValue(t'[i], field)
    ensures forall i :: 0 <= i < |s| ==> FieldValue(s[i], field) == FieldValue(t[i], field)
  {
    var s', t' := s[1..], t[..k] + t[k + 1..];
    forall i | 0 < i < |s|
      ensures FieldValue(s[i], field) == FieldValue(t[i], field)
    {
      assert s[i] == s'[i - 1];
      if i <= k {
        assert t'[i - 1] == t[i - 1];
      } else {
        assert t'[i - 1] == t[i];
      }
    }
  }

  /**
   * Two sorted arrangements of the same documents have the same sort key at
   * every position: they differ only in the order of documents whose keys tie.
   */
  lemma {:induction false} SortedArrangementsAgreeOnKeys(s: seq<Row>, t: seq<Row>, field: string, dir: Direction)
    requires SortedOn(s, field, dir) && SortedOn(t, field, dir)
    requires multiset(s) == multiset(t)
    ensures |s| == |t|
    ensures forall i :: 0 <= i < |s| ==> FieldValue(s[i], field) == FieldValue(t[i], field)
  {
    assert |s| == |multiset(s)| == |multiset(t)| == |t|;
    if s != [] {
      var k := HeadsTie(s, t, field, dir);
      RemoveMatched(s, t, k);
      RemoveAtSorted(s, 0, field, dir);
      assert s[..0] + s[1..] == s[1..];
      RemoveAtSorted(t, k, field, dir);
      SortedArrangementsAgreeOnKeys(s[1..], t[..k] + t[k + 1..], field, dir);
      forall i | 0 < i <= k
        ensures FieldValue(t[i - 1], field) == FieldValue(t[i], field)
      {
        TiedPrefix(t, k, i, field, dir);
      }
      ShiftKeys(s, t, k, field);
    }
  }

  /** Windows cut at the same place from sequences whose keys agree have keys that agree. */
  lemma WindowsAgreeOnKeys(s: seq<Row>, t: seq<Row>, skip: nat, limit: Pos, field: string)
    requires |s| == |t|
    requires forall i :: 0 <= i < |s| ==> FieldValue(s[i], field) == FieldValue(t[i], field)
    ensures var w, v := Window(s, skip, limit), Window(t, skip, limit);
            && |w| == |v|
            && forall i :: 0 <= i < |w| ==> FieldValue(w[i], field) == FieldValue(v[i], field)
  {
    var w, v := Window(s, skip, limit), Window(t, skip, limit);
    forall i | 0 <= i < |w|
      ensures FieldValue(w[i], field) == FieldValue(v[i], field)
    {
      assert w[i] == s[skip + i] && v[i] == t[skip + i];
    }
  }

  /**
   * The store's read order only decides ties: whatever order it scans the
   * matching documents in, the page has the same length and the same sort
   * key at every position.
   */
  lemma FindPageScanOnlyReordersTies(rows: seq<Row>, scan1: seq<Row>, scan2: seq<Row>, f: Filter, o: FindOptions,
                                      matches: (string, string) -> bool)
    requires multiset(scan1) == multiset(Select(rows, f, matches))
    requires multiset(scan2) == multiset(Select(rows, f, matches))
    ensures var p1, p2 := FindPage(rows, scan1, f, o, matches), FindPage(rows, scan2, f, o, matches);
            && |p1| == |p2|
            && forall i :: 0 <= i < |p1| ==> FieldValue(p1[i], o.sortField) == FieldValue(p2[i], o.sortField)
  {
    var sorted1, sorted2 := Sort(scan1, o.sortField, o.direction), Sort(scan2, o.sortField, o.direction);
    SortSorted(scan1, o.sortField, o.direction);
    SortSorted(scan2, o.sortField, o.direction);
    SortedArrangementsAgreeOnKeys(sorted1, sorted2, o.sortField, o.direction);
    WindowsAgreeOnKeys(sorted1, sorted2, o.skip, o.limit, o.sortField);
  }

  /**
   * Every item of a listing of `n` items appears on exactly the page its
   * position says, and that page is one of the first TotalPages(n, limit).
   */
  lemma ItemOnItsPage(s: seq<Row>, i: nat, limit: Pos)
    requires i < |s|
    ensures var page := i / limit + 1;
            var w := Window(s, (page - 1) * limit, limit);
            && i % limit < |w| && w[i % limit] == s[i]
            && page <= TotalPages(|s|, limit)
  {
    var page := i / limit + 1;
    var skip := (page - 1) * limit;
    assert skip + i % limit == i;
    var t := TotalPages(|s|, limit);
    if t < page {
      MulMonotonic(t, page - 1, limit);
    }
  }

  /** A page after the last one is empty. */
  lemma PastLastPageEmpty(s: seq<Row>, page: Pos, limit: Pos)
    requires page > TotalPages(|s|, limit)
    ensures Window(s, (page - 1) * limit, limit) == []
  {
    MulMonotonic(TotalPages(|s|, limit), page - 1, limit);
  }
}

=== FILE: query.dfy ===
/**
 * The product-listing request: how the optional query-string parameters of
 * GET /products become a filter, the find options (skip, limit, sort) and
 * the pagination metadata of the response.
 */
module ProductQuery {
  import opened Documents

  /** A positive integer: the values of `page` and `limit` this model admits. */
  type Pos = n: int | n >= 1 witness 1

  const DefaultPage: Pos := 1
  const DefaultLimit: Pos := 10
  const DefaultSortBy: string := "name"
  const DefaultSortOrder: string := "asc"

  /** The query-string parameters of GET /products; `None` is an absent parameter. */
  datatype Query = Query(
    category: Option<string>,
    search: Option<string>,
    page: Option<Pos>,
    limit: Option<Pos>,
    sortBy: Option<string>,
    sortOrder: Option<string>,
    addedToCart: Option<string>)

  /**
   * The filter document: each field is a constraint, `None` is no constraint.
   * `titlePattern` is a case-insensitive regular expression on the title.
   */
  datatype Filter = Filter(
    category: Option<string>,
    titlePattern: Option<string>,
    addedToCart: Option<bool>)

  datatype Direction = Ascending | Descending

  /** The options handed to the store's find: skip, limit and a one-field sort. */
  datatype FindOptions = FindOptions(skip: nat, limit: Pos, sortField: string, direction: Direction)

  /** The pagination block of the response. */
  datatype Pagination = Pagination(totalProducts: nat, totalPages: nat, currentPage: Pos, pageSize: Pos)

  /** A parameter that is present and not the empty string (a truthy string). */
  predicate Truthy(p: Option<string>) {
    p.Some? && p.value != ""
  }

  /** `page`, defaulting to 1. */
  function PageOf(q: Query): Pos { q.page.GetOr(DefaultPage) }

  /** `limit`, defaulting to 10. */
  function LimitOf(q: Query): Pos { q.limit.GetOr(DefaultLimit) }

  /** The filter built from the request: three independent conditional fields. */
  function BuildFilter(q: Query): (f: Filter)
    ensures f.category.Some? <==> Truthy(q.category)
    ensures f.category.Some? ==> f.category.value == q.category.value
    ensures f.titlePattern.Some? <==> Truthy(q.search)
    ensures f.titlePattern.Some? ==> f.titlePattern.value == q.search.value
    ensures f.addedToCart.Some? <==> q.addedToCart.Some?
    ensures f.addedToCart.Some? ==> (f.addedToCart.value <==> q.addedToCart.value == "true")
  {
    Filter(
      if Truthy(q.category) then Some(q.category.value) else None,
      if Truthy(q.search) then Some(q.search.value) else None,
      if q.addedToCart.Some? then Some(q.addedToCart.value == "true") else None)
  }

  /** The find options built from the request. */
  function BuildOptions(q: Query): (o: FindOptions)
    ensures o.limit == LimitOf(q)
    ensures o.skip + o.limit == PageOf(q) * LimitOf(q)
    ensures q.sortBy.None? ==> o.sortField == "name"
    ensures q.sortBy.Some? ==> o.sortField == q.sortBy.value
    ensures o.direction == Ascending <==> (q.sortOrder.None? || q.sortOrder.value == "asc")
    ensures q.page.None? && q.limit.None? ==> o.skip == 0 && o.limit == 10
  {
    var page, limit := PageOf(q), LimitOf(q);
    FindOptions(
      (page - 1) * limit,
      limit,
      q.sortBy.GetOr(DefaultSortBy),
      if q.sortOrder.GetOr(DefaultSortOrder) == "asc" then Ascending else Descending)
  }

  /** The number of pages of `limit` items needed for `total` items. */
  function TotalPages(total: nat, limit: Pos): (r: nat)
    ensures r * limit >= total
    ensures r > 0 ==> (r - 1) * limit < total
    ensures r == 0 <==> total == 0
  {
    var r := (total + limit - 1) / limit;
    var rem := (total + limit - 1) % limit;
    assert r * limit + rem == total + limit - 1;
    assert r > 0 ==> (r - 1) * limit == r * limit - limit;
    r
  }

  lemma MulMonotonic(a: nat, b: nat, k: Pos)
    requires a <= b
    ensures a * k <= b * k
  {
  }

  /** TotalPages is the least page count that holds every item. */
  lemma TotalPagesLeast(total: nat, limit: Pos, t: nat)
    requires t * limit >= total
    ensures TotalPages(total, limit) <= t
  {
    var r := TotalPages(total, limit);
    if t < r {
      MulMonotonic(t, r - 1, limit);
    }
  }

  /** The pagination metadata for `total` matching products. */
  function BuildPagination(total: nat, q: Query): (p: Pagination)
    ensures p.totalProducts == total
    ensures p.currentPage == PageOf(q) && p.pageSize == LimitOf(q)
    ensures p.totalPages * p.pageSize >= total
    ensures forall t: nat :: t * p.pageSize >= total ==> p.totalPages <= t
    ensures p.totalPages == 0 <==> total == 0
  {
    var limit := LimitOf(q);
    forall t: nat | t * limit >= total
      ensures TotalPages(total, limit) <= t
    {
      TotalPagesLeast(total, limit, t);
    }
    Pagination(total, TotalPages(total, limit), PageOf(q), limit)
  }
}

=== FILE: store.dfy ===
/**
 * One collection of the document store: documents keyed by their `_id`,
 * kept in natural (insertion) order, with the operations the catalog's
 * handlers call: insertOne, findOne, updateOne with `$set`, deleteOne,
 * countDocuments and find.
 */
module Store {
  import opened Documents
  import opened ProductQuery
  import opened Listing

  datatype StoreError =
    | DuplicateKey(key: Value)  // insertOne with an `_id` already present
    | ImmutableId               // `$set` that would change a document's `_id`

  datatype Result<T> = Ok(value: T) | Err(error: StoreError)

  /** What updateOne reports: documents matched by the key, documents changed. */
  datatype UpdateResult = UpdateResult(matchedCount: nat, modifiedCount: nat)

  predicate Distinct(s: seq<Value>) {
    forall i, j :: 0 <= i < j < |s| ==> s[i] != s[j]
  }

  lemma DistinctCons(k: Value, s: seq<Value>)
    ensures Distinct([k] + s) <==> k !in s && Distinct(s)
  {
    var t := [k] + s;
    if Distinct(t) {
      forall i, j | 0 <= i < j < |s|
        ensures s[i] != s[j]
      {
        assert s[i] == t[i + 1] && s[j] == t[j + 1];
      }
      forall j | 0 <= j < |s|
        ensures s[j] != k
      {
        assert s[j] == t[j + 1] && t[0] == k;
        assert t[0] != t[j + 1];
      }
    }
  }

  /** The stored documents as rows, in the order `order` lists their keys. */
  function RowsOf(order: seq<Value>, docs: map<Value, Doc>): (rows: seq<Row>)
    ensures forall r :: r in rows ==> r.id in order && r.id in docs && r.fields == docs[r.id]
    ensures forall k :: k in order && k in docs ==> Row(k, docs[k]) in rows
  {
    if order == [] then []
    else
      var rest := RowsOf(order[1..], docs);
      assert order == [order[0]] + order[1..];
      if order[0] in docs then [Row(order[0], docs[order[0]])] + rest else rest
  }

  /** The keys listed in `order` whose stored documents `keep` accepts. */
  ghost function KeptKeys(order: seq<Value>, docs: map<Value, Doc>, keep: Row -> bool): set<Value> {
    set k | k in order && k in docs && keep(Row(k, docs[k]))
  }

  lemma KeptKeysCons(k0: Value, rest: seq<Value>, docs: map<Value, Doc>, keep: Row -> bool)
    ensures KeptKeys([k0] + rest, docs, keep)
         == KeptKeys(rest, docs, keep) + (if k0 in docs && keep(Row(k0, docs[k0])) then {k0} else {})
  {
  }

  lemma FilteredRowsCons(k0: Value, rest: seq<Value>, docs: map<Value, Doc>, keep: Row -> bool)
    ensures |Filtered(RowsOf([k0] + rest, docs), keep)|
         == |Filtered(RowsOf(rest, docs), keep)| + (if k0 in docs && keep(Row(k0, docs[k0])) then 1 else 0)
  {
    var order := [k0] + rest;
    assert order[1..] == rest;
    var rows := RowsOf(order, docs);
    if k0 in docs {
      assert rows[1..] == RowsOf(rest, docs);
    }
  }

  /**
   * Counting the rows that `keep` accepts is counting the keys whose
   * documents it accepts, when no key is listed twice.
   */
  lemma {:induction false} CountFilteredRows(order: seq<Value>, docs: map<Value, Doc>, keep: Row -> bool)
    requires Distinct(order)
    ensures |Filtered(RowsOf(order, docs), keep)| == |KeptKeys(order, docs, keep)|
  {
    if order == [] {
      assert KeptKeys(order, docs, keep) == {};
    } else {
      var k0, rest := order[0], order[1..];
      assert order == [k0] + rest;
      DistinctCons(k0, rest);
      CountFilteredRows(rest, docs, keep);
      KeptKeysCons(k0, rest, docs, keep);
      FilteredRowsCons(k0, rest, docs, keep);
      assert k0 !in KeptKeys(rest, docs, keep);
    }
  }

  /** The key sequence without `k`. */
  function RemoveKey(s: seq<Value>, k: Value): (r: seq<Value>)
    ensures forall x :: x in r <==> x in s && x != k
  {
    if s == [] then []
    else
      assert s == [s[0]] + s[1..];
      if s[0] == k then RemoveKey(s[1..], k) else [s[0]] + RemoveKey(s[1..], k)
  }

  lemma {:induction false} RemoveKeyDistinct(s: seq<Value>, k: Value)
    requires Distinct(s)
    ensures Distinct(RemoveKey(s, k))
  {
    if s != [] {
      assert s == [s[0]] + s[1..];
      DistinctCons(s[0], s[1..]);
      RemoveKeyDistinct(s[1..], k);
      if s[0] != k {
        DistinctCons(s[0], RemoveKey(s[1..], k));
      }
    }
  }

  /** The update document with its `_id` field taken out. */
  function StripId(body: Doc): (u: Doc)
    ensures IdField !in u
    ensures u.Keys == body.Keys - {IdField}
    ensures forall f :: f in u ==> u[f] == body[f]
  {
    body - {IdField}
  }

  /** `$set`: the fields of `update` overwrite or are added, every other field stays. */
  function SetFields(doc: Doc, update: Doc): (d: Doc)
    ensures d.Keys == doc.Keys + update.Keys
    ensures forall f :: f in update ==> d[f] == update[f]
    ensures forall f :: f in doc && f !in update ==> d[f] == doc[f]
  {
    doc + update
  }

  /** `$set` on the document stored under `key`, if there is one. */
  function ApplySet(docs: map<Value, Doc>, key: Value, update: Doc): (r: map<Value, Doc>)
    ensures r.Keys == docs.Keys
    ensures forall k :: k in docs && k != key ==> r[k] == docs[k]
    ensures key in docs ==> r[key] == SetFields(docs[key], update)
  {
    if key in docs then docs[key := SetFields(docs[key], update)] else docs
  }

  /** Applying the same `$set` twice leaves the store as applying it once. */
  lemma ApplySetIdempotent(docs: map<Value, Doc>, key: Value, update: Doc)
    ensures ApplySet(ApplySet(docs, key, update), key, update) == ApplySet(docs, key, update)
  {
    var once := ApplySet(docs, key, update);
    if key in docs {
      assert SetFields(once[key], update) == once[key];
    }
  }

  class Collection {
    /** The documents, by primary key; a document's fields never hold its `_id`. */
    var docs: map<Value, Doc>
    /** The keys in natural (insertion) order. */
    var order: seq<Value>

    ghost predicate Valid()
      reads this
    {
      && Distinct(order)
      && (forall k :: k in docs <==> k in order)
      && (forall k :: k in docs ==> IdField !in docs[k])
    }

    constructor ()
      ensures Valid()
      ensures docs == map[] && order == []
    {
      docs := map[];
      order := [];
    }

    /** The stored documents in natural order. */
    function Rows(): (rows: seq<Row>)
      reads this
      ensures forall r :: r in rows ==> r.id in docs && r.fields == docs[r.id]
      ensures forall k :: k in docs && k in order ==> Row(k, docs[k]) in rows
    {
      RowsOf(order, docs)
    }

    /**
     * insertOne: the document is stored under its own `_id` when it has one,
     * else under the identifier the driver generated; an `_id` already in use
     * is refused.
     */
    method InsertOne(body: Doc, generated: nat) returns (r: Result<Value>)
      requires Valid()
      modifies this
      ensures Valid()
      ensures var key := if IdField in body then body[IdField] else ObjectId(generated);
              if key in old(docs) then
                r == Err(DuplicateKey(key)) && docs == old(docs) && order == old(order)
              else
                r == Ok(key) && docs == old(docs)[key := StripId(body)] && order == old(order) + [key]
    {
      var key := if IdField in body then body[IdField] else ObjectId(generated);
      if key in docs {
        return Err(DuplicateKey(key));
      }
      forall i, j | 0 <= i < j < |order + [key]|
        ensures (order + [key])[i] != (order + [key])[j]
      {
        if j == |order| {
          assert order[i] in docs;
        }
      }
      docs := docs[key := StripId(body)];
      order := order + [key];
      r := Ok(key);
    }

    /** findOne by primary key: the document, or nothing when no document has that key. */
    function FindOne(key: Value): (r: Option<Row>)
      reads this
      ensures r.Some? <==> key in docs
      ensures r.Some? ==> r.value.id == key && r.value.fields == docs[key]
    {
      if key in docs then Some(Row(key, docs[key])) else None
    }

    /**
     * updateOne with `$set`: no match changes nothing; a `$set` that names an
     * `_id` other than the document's own is refused; otherwise the supplied
     * fields are merged and the document counts as modified when it changed.
     */
    method UpdateOne(key: Value, update: Doc) returns (r: Result<UpdateResult>)
      requires Valid()
      modifies this
      ensures Valid() && order == old(order)
      ensures key !in old(docs) ==> r == Ok(UpdateResult(0, 0)) && docs == old(docs)
      ensures key in old(docs) && IdField in update && update[IdField] != key ==>
                r == Err(ImmutableId) && docs == old(docs)
      ensures key in old(docs) && (IdField !in update || update[IdField] == key) ==>
                && docs == ApplySet(old(docs), key, StripId(update))
                && r == Ok(UpdateResult(1, if docs[key] == old(docs)[key] then 0 else 1))
    {
      if key !in docs {
        return Ok(UpdateResult(0, 0));
      }
      if IdField in update && update[IdField] != key {
        return Err(ImmutableId);
      }
      var before := docs[key];
      docs := ApplySet(docs, key, StripId(update));
      r := Ok(UpdateResult(1, if docs[key] == before then 0 else 1));
    }

    /** deleteOne by primary key: removes the document if there is one, and says how many went. */
    method DeleteOne(key: Value) returns (deletedCount: nat)
      requires Valid()
      modifies this
      ensures Valid()
      ensures deletedCount == if key in old(docs) then 1 else 0
      ensures docs == old(docs) - {key}
      ensures order == RemoveKey(old(order), key)
    {
      RemoveKeyDistinct(order, key);
      deletedCount := if key in docs then 1 else 0;
      docs := docs - {key};
      order := RemoveKey(order, key);
    }

    /** countDocuments: the number of stored documents the filter accepts. */
    function CountDocuments(f: Filter, matches: (string, string) -> bool): (n: nat)
      reads this
      requires Valid()
      ensures n == |set k | k in docs && RowMatches(Row(k, docs[k]), f, matches)|
    {
      CountFilteredRows(order, docs, r => RowMatches(r, f, matches));
      assert KeptKeys(order, docs, r => RowMatches(r, f, matches))
          == (set k | k in docs && RowMatches(Row(k, docs[k]), f, matches));
      |Select(Rows(), f, matches)|
    }

    /**
     * find with a filter and options: the documents the filter accepts,
     * sorted on the options' field and direction, from position `skip`,
     * at most `limit` of them. `scan` is the accepted documents in the order
     * the store reads them; it breaks ties between equal sort keys.
     */
    function Find(scan: seq<Row>, f: Filter, o: FindOptions, matches: (string, string) -> bool): (page: seq<Row>)
      reads this
      requires multiset(scan) == multiset(Select(Rows(), f, matches))
      ensures |page| <= o.limit
      ensures forall r :: r in page ==> r.id in docs && r.fields == docs[r.id] && RowMatches(r, f, matches)
      ensures SortedOn(page, o.sortField, o.direction)
      ensures var sorted := Sort(scan, o.sortField, o.direction);
              && multiset(sorted) == multiset(Select(Rows(), f, matches))
              && |page| == (if o.skip >= |sorted| then 0
                            else if o.skip + o.limit <= |sorted| then o.limit
                            else |sorted| - o.skip)
              && forall i :: 0 <= i < |page| ==> page[i] == sorted[o.skip + i]
    {
      var rows := Rows();
      var page := FindPage(rows, scan, f, o, matches);
      assert forall r :: r in page ==> r in rows;
      page
    }
  }
}
